=== FILE: README.md ===
# NETLOGON challenge/response client, modelled in Dafny

This project models the NETLOGON secure-channel client of the illumos SMB
server (`usr/src/lib/smbsrv/libmlsvc/common/netr_auth.c`): the
domain-controller mitigation check on challenges and credentials, the
little-endian word arithmetic, the strong (HMAC-MD5) and legacy (two-pass
DES) session-key derivations, credential generation with its optional
RETRY, trust-password encryption, the ServerReqChallenge,
ServerAuthenticate2 and ServerPasswordSet exchanges, the configuration and
bind-selection flag logic, and `netlogon_auth`, which ties them together.

The process-wide `netr_global_info`, the relevant part of `netr_ssp_ctx`,
the `auth_context_id` counter and `netr_server_auth2_flags` form one
explicit `Globals` record that the operations take and return. DES, MD5,
HMAC-MD5 and the NTLM hash are uninterpreted functions in a `Primitives`
record. `Option.None` stands for a primitive failure. The domain
controller is a function from each request to its reply.

Modules, one per component, leaves first:

| file | module | what it holds |
|---|---|---|
| types.dfy | `NetrTypes` | bytes, words, 8/16-byte blocks, `Option`, SMBAUTH status, `memcmp` |
| le32.dfy | `LittleEndian` | `LE_IN32`, `LE_OUT32`, DWORD addition |
| mitigation.dfy | `DcMitigation` | `passes_dc_mitigation` and its declarative meaning |
| state.dfy | `NetrState` | `netr_info_t`, the globals, flag constants, the password buffer |
| crypto.dfy | `Crypto` | the uninterpreted primitives and the PKCS#11 fault oracle |
| session_key.dfy | `SessionKey` | `netr_gen_skey128`, `netr_gen_skey64` |
| credentials.dfy | `Credentials` | `netr_gen_credentials`, `netr_gen_password` |
| netlogon.dfy | `Netlogon` | flag logic, the three exchanges, `netlogon_auth` |

`StrongKey`, `LegacyKey` and `Credential` define the key and credential
values directly, following the pseudocode of sections 3.1.4.3 and 3.1.4.4
of [MS-NRPC]. `GenSkey128`, `GenSkey64` and `GenCredentials` model the C
functions with their status codes and partial buffer updates. Their
contracts relate every outcome back to those definitions. The two key
derivations return a `KeyOutcome` that holds only the password buffer, the
session key and the key length, and `Install` writes it back into
`netr_info_t`. By construction they change no other field.

`netr_info_t.flags` is a DWORD (`uint32`). Setting NETR_FLG_VALID, bit 0,
is `WithValid`. The negotiate-flag and configuration words are `bv32`,
since the code masks them.

Behaviour kept as the code has it:

- `netr_gen_skey128` returns SMBAUTH_SUCCESS when a PKCS#11 digest call
  after `SUNW_C_GetMechSession` fails. In that case no key is derived and
  the key length is not set. It also sets the key length to 16 whatever
  HMAC-MD5 returns. `netr_gen_skey64` likewise sets the length to 8 once
  the first DES pass succeeds, so a failed second pass leaves it at 8.
- `netr_gen_credentials` returns RETRY, not FAILURE, when the second DES
  pass fails, `retry` is set, and the untouched output buffer fails the
  mitigation.
- `netlogon_auth` does not unbind after a failed bind. It unbinds exactly
  once, as the last call, on every other path.
- `netr_server_password_set` returns 0 on a reply with status 0 even when
  `netr_validate_chain` rejects the returned authenticator. In that case it
  keeps the old password.
- The negotiate flags the server returns are stored as they are. The
  client does not intersect them with the flags it sent.
  `DisabledSecureRpcGivesUnauthenticatedBind` assumes the server returns
  a subset.
- Both session-key functions wipe the password buffer. A later
  `netr_server_password_set` therefore encrypts the zeroed buffer, and the
  model does the same (`OwfView` of an empty buffer is 16 zero bytes).
- With the initial `netr_server_auth2_flags` the legacy key is never
  chosen (`DefaultFlagsSelectStrongKey`). The legacy branch is still
  modelled.

## Model

| member | source | states |
|---|---|---|
| NetrTypes.Memcmp | usr/src/lib/smbsrv/libmlsvc/common/netr_auth.c:420-421 | the comparison of the expected and returned server credential is zero exactly when the two 8-byte buffers are equal |
| LittleEndian.Add32 | usr/src/lib/smbsrv/libmlsvc/common/netr_auth.c:581-582 | DWORD addition gives the true sum or the sum less 2^32; it wraps exactly when the true sum reaches 2^32 |
| LittleEndian.LeInOut | usr/src/lib/smbsrv/libmlsvc/common/netr_auth.c:583-584 | reading back a little-endian encoded word gives the word |
| LittleEndian.LeOutIn | usr/src/lib/smbsrv/libmlsvc/common/netr_auth.c:641-645 | re-encoding a word read from four bytes gives the same four bytes |
| DcMitigation.InnerScan | usr/src/lib/smbsrv/libmlsvc/common/netr_auth.c:125-128 | the inner loop stops at the first other index holding the same byte, and no skipped index holds it |
| DcMitigation.OuterScanMeaning | usr/src/lib/smbsrv/libmlsvc/common/netr_auth.c:124-136 | the outer loop from index i returns true exactly when some byte at index i or later is unique among the first five |
| DcMitigation.PassesDcMitigationMeaning | usr/src/lib/smbsrv/libmlsvc/common/netr_auth.c:119-137 | the check passes exactly when some byte of buf[0..5) differs from the other four |
| DcMitigation.OnlyFirstFiveMatter | usr/src/lib/smbsrv/libmlsvc/common/netr_auth.c:124-126 | buffers that agree on their first five bytes get the same verdict; later bytes never matter |
| DcMitigation.UniformPrefixFails | usr/src/lib/smbsrv/libmlsvc/common/netr_auth.c:135-136 | a buffer whose first five bytes are all equal fails |
| DcMitigation.ZeroBlockFails | usr/src/lib/smbsrv/libmlsvc/common/netr_auth.c:117-137 | the all-zero 8-byte block fails |
| DcMitigation.EveryBytePairedFails | usr/src/lib/smbsrv/libmlsvc/common/netr_auth.c:124-136 | a buffer in which every one of the first five bytes has an equal partner fails, even with several distinct values |
| DcMitigation.DistinctPrefixPasses | usr/src/lib/smbsrv/libmlsvc/common/netr_auth.c:130-132 | a buffer with five pairwise distinct leading bytes passes |
| NetrState.OwfView | usr/src/lib/smbsrv/libmlsvc/common/netr_auth.c:712-713 | byte i of the old password given to netr_gen_password is byte i of the password buffer; it is the buffer's first 16 bytes when it has that many, and otherwise its contents followed by zeros |
| SessionKey.DigestInput | usr/src/lib/smbsrv/libmlsvc/common/netr_auth.c:482-495 | the MD5 input is 20 bytes: four zero bytes, then the client challenge, then the server challenge |
| SessionKey.ChallengeSum | usr/src/lib/smbsrv/libmlsvc/common/netr_auth.c:581-584 | each little-endian word of the legacy DES input is the sum modulo 2^32 of the matching words of the two challenges |
| SessionKey.ChallengeSumSymmetric | usr/src/lib/smbsrv/libmlsvc/common/netr_auth.c:581-582 | the challenge sum is the same with the two challenges swapped |
| SessionKey.GenSkey128 | usr/src/lib/smbsrv/libmlsvc/common/netr_auth.c:433-514 | an unreadable or empty password fails with no key derived; the password buffer is left empty on every path, since it is zeroed before the read and wiped after use; FAILURE exactly on hash failure, session failure or HMAC failure; a later digest failure reports SUCCESS with key and length untouched; every failure leaves the key untouched, and the length too unless the hash succeeded with no PKCS#11 fault; otherwise the length is 16 and a successful key is HMAC-MD5 of the digest keyed by the NTLM hash; the outcome holds only the password, the key and the key length, so nothing else can change |
| SessionKey.GenSkey64 | usr/src/lib/smbsrv/libmlsvc/common/netr_auth.c:546-601 | an unreadable or empty password fails with no key derived; the password buffer is left empty on every path, since it is zeroed before the read and wiped after use; SUCCESS exactly when the two-pass DES key (hash bytes [0,7) then [9,16)) exists; then bytes [0,8) are that key and bytes [8,16) are untouched; a failure leaves the key untouched; the length becomes 8 exactly when the hash and the first DES pass succeed, even if the second pass fails, and is untouched otherwise |
| SessionKey.GenSkey64Symmetric | usr/src/lib/smbsrv/libmlsvc/common/netr_auth.c:581-594 | the legacy key and its status do not change when the client and server challenges are swapped |
| SessionKey.Skey128DigestFailureReportsSuccess | usr/src/lib/smbsrv/libmlsvc/common/netr_auth.c:478-505 | a failing DigestInit, DigestUpdate or DigestFinal gives SMBAUTH_SUCCESS with the key and its length as before |
| Credentials.CredentialInput | usr/src/lib/smbsrv/libmlsvc/common/netr_auth.c:640-645 | the first little-endian word of the DES input is the challenge's first word plus the timestamp modulo 2^32; bytes [4,8) are the challenge's |
| Credentials.CredentialInputZero | usr/src/lib/smbsrv/libmlsvc/common/netr_auth.c:393-403 | with timestamp 0 the DES input is the challenge itself |
| Credentials.CredentialInputCompose | usr/src/lib/smbsrv/libmlsvc/common/netr_auth.c:641 | adding t1 and then t2 to a challenge equals adding t1 + t2 modulo 2^32 |
| Credentials.GenCredentials | usr/src/lib/smbsrv/libmlsvc/common/netr_auth.c:630-667 | RETRY exactly when retry is set, the first DES pass succeeded and the output fails the mitigation; SUCCESS exactly when both passes (session-key bytes [0,7) then [7,14)) succeed and, with retry, the output passes; the output is the credential when it exists and the caller's buffer otherwise; without retry the status is that of the cipher |
| Credentials.RetryMasksSecondCipherFailure | usr/src/lib/smbsrv/libmlsvc/common/netr_auth.c:651-666 | a failed second DES pass is reported as RETRY when retry is set and the untouched buffer fails the mitigation, and as FAILURE without retry |
| Credentials.GenPassword | usr/src/lib/smbsrv/libmlsvc/common/netr_auth.c:763-776 | new bytes [0,8) are DES of old bytes [0,8) under key bytes [0,7); new bytes [8,16) are DES of old bytes [8,16) under key bytes [7,14); no result when either pass fails |
| Credentials.GenPasswordHalvesIndependent | usr/src/lib/smbsrv/libmlsvc/common/netr_auth.c:768-775 | old passwords agreeing on one half give new passwords agreeing on that half |
| Credentials.GenPasswordFirstFailureShortCircuits | usr/src/lib/smbsrv/libmlsvc/common/netr_auth.c:768-771 | a failed first pass fails the whole derivation whatever the second half and key bytes [7,14) are |
| Netlogon.InitGlobal | usr/src/lib/smbsrv/libmlsvc/common/netr_auth.c:95-104 | secure RPC, response verification and SamLogonEx are each enabled exactly when their disable bit is clear; nothing else changes |
| Netlogon.InitGlobalLastWins | usr/src/lib/smbsrv/libmlsvc/common/netr_auth.c:95-104 | a second configuration replaces the first completely |
| Netlogon.InitGlobalIgnoresOtherBits | usr/src/lib/smbsrv/libmlsvc/common/netr_auth.c:91-104 | configuration words that agree on the three defined bits give the same state |
| Netlogon.OpenSecure | usr/src/lib/smbsrv/libmlsvc/common/netr_auth.c:266-290 | a secure bind exactly when the negotiated flags hold SECURE_RPC; it takes the current auth_context_id and advances the counter, writing only the context id of netr_ssp_ctx; an unauthenticated bind changes nothing |
| Netlogon.SecureOpensUseDistinctContextIds | usr/src/lib/smbsrv/libmlsvc/common/netr_auth.c:264-283 | two successive secure binds use different context ids |
| Netlogon.ServerReqChallenge | usr/src/lib/smbsrv/libmlsvc/common/netr_auth.c:307-336 | returns 0 exactly on a reply with status 0, and only then stores the server challenge; otherwise returns -1 with the state unchanged |
| Netlogon.RequestedFlags | usr/src/lib/smbsrv/libmlsvc/common/netr_auth.c:368-376 | the requested flags hold SECURE_RPC exactly when secure RPC is enabled and the global has it; every other bit is the global's |
| Netlogon.DefaultRequestedFlags | usr/src/lib/smbsrv/libmlsvc/common/netr_auth.c:338-341 | with the initial global the request is BASE, STRONGKEY and SECURE_RPC, without SECURE_RPC when it is disabled |
| Netlogon.AuthenticateWithKey | usr/src/lib/smbsrv/libmlsvc/common/netr_auth.c:379-424 | after a failed key derivation, -1 with only the key material installed and nothing sent; otherwise the credentials are those of the derived session key over the stored challenges, the request is sent exactly when both exist and carries the client credential, the negotiate flags come only from a status-0 reply, only the key material, the credentials and the negotiate flags change, and 0 is returned exactly when a status-0 reply carries the stored server credential |
| Netlogon.ComputeAndSend | usr/src/lib/smbsrv/libmlsvc/common/netr_auth.c:393-424 | the client credential and then the server credential are computed from the stored session key; a failure returns -1 with nothing sent; the request is sent exactly when both succeed; only the two credentials and the negotiate flags change |
| Netlogon.SendAuthenticate2 | usr/src/lib/smbsrv/libmlsvc/common/netr_auth.c:405-424 | the request always carries the stored client credential; a reply with status 0 stores its negotiate flags and anything else changes nothing; 0 exactly when a status-0 reply returns the stored server credential byte for byte |
| Netlogon.ServerAuthenticate2 | usr/src/lib/smbsrv/libmlsvc/common/netr_auth.c:346-425 | the strong key (netr_gen_skey128) is derived exactly when the requested flags hold STRONGKEY, the legacy one otherwise; a failed derivation returns -1 before anything is sent; the stored key, key length and password are the derivation's; the request is sent exactly when the derivation and both credentials succeed, carries the requested flags and the client credential of the derived key, and the stored server credential is that key's; negotiate flags are stored only from a status-0 reply; no field outside the key material, the credentials and the negotiate flags changes; returns 0 exactly when a status-0 reply carries the computed server credential |
| Netlogon.DefaultFlagsSelectStrongKey | usr/src/lib/smbsrv/libmlsvc/common/netr_auth.c:338-384 | while netr_server_auth2_flags keeps its initial value the strong key is chosen: the stored session key and its length are those of netr_gen_skey128, and its failure returns -1 with nothing sent |
| Netlogon.DisabledSecureRpcGivesUnauthenticatedBind | usr/src/lib/smbsrv/libmlsvc/common/netr_auth.c:370-418 | with secure RPC disabled by configuration and a server returning a subset of the requested flags, a successful authentication leaves SECURE_RPC unnegotiated and the next open uses an unauthenticated bind |
| Netlogon.SavePassword | usr/src/lib/smbsrv/libmlsvc/common/netr_auth.c:743-744 | saving puts the new 16-byte password at the front of the buffer and keeps the bytes after it |
| Netlogon.ServerPasswordSet | usr/src/lib/smbsrv/libmlsvc/common/netr_auth.c:682-749 | a new password is sent exactly when the authenticator is set up and netr_gen_password succeeds, and it is netr_gen_password of the first 16 buffer bytes; returns 0 exactly on a reply with status 0; after a validated status-0 reply the stored password is the buffer with its first 16 bytes replaced by the password sent, and otherwise it is unchanged; nothing else changes |
| Netlogon.PasswordSetIgnoresChainFailure | usr/src/lib/smbsrv/libmlsvc/common/netr_auth.c:739-748 | a reply with status 0 whose authenticator fails validation still gives 0 and leaves the state unchanged |
| Netlogon.ChallengeFromWords | usr/src/lib/smbsrv/libmlsvc/common/netr_auth.c:210-213 | the challenge's two little-endian words are the two random words |
| Netlogon.GenerateClientChallenge | usr/src/lib/smbsrv/libmlsvc/common/netr_auth.c:208-217 | the challenge returned passes the mitigation, is formed from one drawn pair, and every earlier pair failed |
| Netlogon.ExchangeShape | usr/src/lib/smbsrv/libmlsvc/common/netr_auth.c:219-220 | the challenge call is always made first and is the only call when the challenge reply is not status 0; a second call is the authentication request, made only after a status-0 challenge reply whose server challenge is stored; the client challenge and the flags are kept; 0 exactly when the authentication request got a status-0 reply carrying the stored server credential |
| Netlogon.ChallengeAndAuthenticate | usr/src/lib/smbsrv/libmlsvc/common/netr_auth.c:208-220 | the challenge comes from the first drawn pair of words that passes the mitigation; the return code, the state and the calls made are those of sending that challenge and, after a status-0 reply, running ServerAuthenticate2 on the returned server challenge |
| Netlogon.BracketedOutcome | usr/src/lib/smbsrv/libmlsvc/common/netr_auth.c:219-237 | bracketing the exchange with the bind and the unbind gives three or four calls, the challenge call second, the authenticate call third when made; SUCCESS, and NETR_FLG_VALID added to the flags, exactly when the authentication matched |
| Netlogon.AuthenticateIdentified | usr/src/lib/smbsrv/libmlsvc/common/netr_auth.c:208-237 | after a successful bind and lookups: the calls are the bind, the exchange on the first passing challenge and the unbind; SUCCESS exactly when the exchange returns 0, and then the state is the exchange's with NETR_FLG_VALID set, otherwise the exchange's state as left |
| Netlogon.NetlogonAuth | usr/src/lib/smbsrv/libmlsvc/common/netr_auth.c:153-238 | a failed bind returns its status with nothing changed and no unbind; otherwise the session key is zeroed and the caller's flags stored; a failed identity lookup returns UNSUCCESSFUL after just the bind and the unbind, with the lookups before it stored; when all lookups succeed the challenge exchange is made on the first passing challenge, the calls, the status and the state are those of the exchange, and NETR_FLG_VALID is set exactly on success; the unbind is the last call on every path after a successful bind |
| NetrState.WithValid | usr/src/lib/smbsrv/libmlsvc/common/netr_auth.c:229 | setting NETR_FLG_VALID makes bit 0 one and keeps every higher bit |

## Left out

- The RPC transport (`ndr_rpc_bind`, `ndr_rpc_bind_secure`, `ndr_rpc_call`, `ndr_rpc_release`, `ndr_rpc_unbind`, `ndr_rpc_status`). A bind is a status supplied by the caller. A call is the domain controller's reply, or a transport failure. `netr_close` is the `Unbind` event.
- The request fields other than the challenge, the negotiate flags, the credentials, the authenticator and the OWF password. These are the server name, account name, account type and host name.
- `snprintf` formatting of `\\server` and `host$`. The server name is stored as given, and the account name is not modelled.
- The configuration and identity lookups (`smb_config_getstr`, `smb_getnetbiosname`, `smb_getdomainname`, `smb_getfqdomainname`, `smb_ipc_get_user`). Each one is an input, and `None` means the lookup failed. A failed password read is taken to leave the bzero'd buffer empty. Truncation of a long password into the buffer is not modelled.
- PKCS#11 session handling (`SUNW_C_GetMechSession`, `C_Digest*`, `C_CloseSession`). Only which call fails, if any, is modelled.
- The internals of DES, MD5, HMAC-MD5 and the NTLM hash. These are uninterpreted, and no cryptographic property is claimed.
- The contents of an output buffer after a failed primitive are not visible. The model takes a failed DES or HMAC to leave its output buffer as it was.
- `arc4random`. Its words are supplied as a finite sequence.
- Netlogon.GenerateClientChallenge: requires that some supplied pair passes the mitigation. `netlogon_auth` keeps drawing for as long as it takes, and a loop without a bound cannot be modelled here.
- NetrTypes.Memcmp: returns the sign of the first differing byte. C promises only the sign.
- The bodies of `netr_setup_authenticator` and `netr_validate_chain`. They are caller-supplied functions returning a status (and, for the first, the authenticator sent). Their updates to the credential chain and timestamp are not modelled.
- `smb_update_netlogon_seqnum`, logging and tracing (`syslog`, `smb_tracef`, `xlate_nt_status`).
- Zeroisation of local buffers (`ntlmhash`, `md4hash`, `buffer`, `new_password`) as a security guarantee. Only the wipe of the password field is modelled, as resetting it to empty.
- Concurrency around the process-wide `netr_global_info`. The state is an explicit record threaded through the calls.
- The header `smbsrv/netrauth.h` is not part of this model. The constants it defines are taken as follows:
  - NETR_NEGO_STRONGKEY_FLAG = 0x4000 and NETR_NEGO_SECURE_RPC_FLAG = 0x40000000, as in section 3.1.4.2 of [MS-NRPC];
  - NETR_NEGO_BASE_FLAGS = 0x1FF and NETR_FLG_VALID = 0x1;
  - credential block and password sizes of 8 and 16 bytes, and session-key sizes of 16 and 8 bytes.

  The 7-byte DES key length, NETR_DESKEY_LEN, and the four zero bytes of the MD5 input, NETR_SESSKEY_ZEROBUF_SZ, are defined in `netr_auth.c` itself (lines 51-53).
- The `domain` argument of `netlogon_auth` reaches only the bind, which is an input.

=== FILE: credentials.dfy ===
/**
 Netlogon credential computation ([MS-NRPC] section 3.1.4.4, the DES
 variant) as netr_gen_credentials performs it, with its optional
 mitigation retry, and the password encryption of netr_gen_password.
 */
module Credentials {
  import opened NetrTypes
  import opened LittleEndian
  import opened DcMitigation
  import opened Crypto

  /**
   The DES input of a credential: the timestamp is added modulo 2^32 to
   the first little-endian word of the challenge; the second word is
   copied through.
   */
  function CredentialInput(challenge: Block, timestamp: uint32): (input: Block)
    ensures LeIn32(input[0..4]) == Add32(LeIn32(challenge[0..4]), timestamp)
    ensures input[4..8] == challenge[4..8]
  {
    var lo := Add32(LeIn32(challenge[0..4]), timestamp);
    var hi := LeIn32(challenge[4..8]);
    var input := LeOut32(lo) + LeOut32(hi);
    assert input[0..4] == LeOut32(lo) && input[4..8] == LeOut32(hi);
    LeInOut(lo);
    LeOutIn(challenge[4..8]);
    input
  }

  /** With a zero timestamp the DES input is the challenge itself. */
  lemma CredentialInputZero(challenge: Block)
    ensures CredentialInput(challenge, 0) == challenge
  {
    var input := CredentialInput(challenge, 0);
    assert input[0..4] == challenge[0..4] by {
      LeOutIn(input[0..4]);
      LeOutIn(challenge[0..4]);
    }
    assert input == input[0..4] + input[4..8];
    assert challenge == challenge[0..4] + challenge[4..8];
  }

  /** Two successive timestamp additions equal one addition of their sum modulo 2^32. */
  lemma CredentialInputCompose(challenge: Block, t1: uint32, t2: uint32)
    ensures CredentialInput(CredentialInput(challenge, t1), t2) == CredentialInput(challenge, Add32(t1, t2))
  {
  }

  /**
   The credential itself: DES of the input under session-key bytes [0, 7),
   then DES of that under session-key bytes [7, 14).
   */
  function Credential(p: Primitives, sessionKey: Bytes16, challenge: Block, timestamp: uint32): Option<Block>
  {
    match p.des(sessionKey[0..7], CredentialInput(challenge, timestamp))
    case None => None
    case Some(mid) => p.des(sessionKey[7..14], mid)
  }

  /** The status and output buffer of netr_gen_credentials. */
  datatype CredOutcome = CredOutcome(status: AuthStatus, cred: Block)

  /**
   netr_gen_credentials. outCred is the caller's output buffer before the
   call: a failed DES leaves it as it was.
   */
  function GenCredentials(p: Primitives, sessionKey: Bytes16, challenge: Block, timestamp: uint32,
                          outCred: Block, retry: bool): (r: CredOutcome)
    ensures var first := p.des(sessionKey[0..7], CredentialInput(challenge, timestamp));
            r.status == AuthRetry <==> retry && first.Some? && !PassesDcMitigation(r.cred)
    ensures r.status == AuthSuccess <==>
              Credential(p, sessionKey, challenge, timestamp).Some? && (!retry || PassesDcMitigation(r.cred))
    ensures Credential(p, sessionKey, challenge, timestamp).Some? ==>
              r.cred == Credential(p, sessionKey, challenge, timestamp).value
    ensures Credential(p, sessionKey, challenge, timestamp).None? ==> r.cred == outCred
    ensures !retry ==>
              (r.status == AuthSuccess <==> Credential(p, sessionKey, challenge, timestamp).Some?)
              && r.status != AuthRetry
  {
    var input := CredentialInput(challenge, timestamp);
    match p.des(sessionKey[0..7], input)
    case None => CredOutcome(AuthFailure, outCred)
    case Some(mid) =>
      var second := p.des(sessionKey[7..14], mid);
      var out := if second.Some? then second.value else outCred;
      var rc := if second.Some? then AuthSuccess else AuthFailure;
      if retry && !PassesDcMitigation(out) then CredOutcome(AuthRetry, out)
      else CredOutcome(rc, out)
  }

  /**
   When the second DES pass fails and the untouched output buffer fails
   the mitigation, a caller asking for retries sees AuthRetry, not the
   cipher failure.
   */
  lemma RetryMasksSecondCipherFailure(p: Primitives, sessionKey: Bytes16, challenge: Block, timestamp: uint32, outCred: Block)
    requires p.des(sessionKey[0..7], CredentialInput(challenge, timestamp)).Some?
    requires Credential(p, sessionKey, challenge, timestamp).None?
    requires !PassesDcMitigation(outCred)
    ensures GenCredentials(p, sessionKey, challenge, timestamp, outCred, true).status == AuthRetry
    ensures GenCredentials(p, sessionKey, challenge, timestamp, outCred, false).status == AuthFailure
  {
  }

  /**
   netr_gen_password: the first 8 bytes of the new password are DES of the
   old password's first 8 bytes under session-key bytes [0, 7); the last 8
   bytes are DES of the old password's last 8 bytes under session-key
   bytes [7, 14). None when either pass fails.
   */
  function GenPassword(p: Primitives, sessionKey: Bytes16, oldPw: Bytes16): (r: Option<Bytes16>)
    ensures r.Some? <==>
              p.des(sessionKey[0..7], oldPw[0..8]).Some? && p.des(sessionKey[7..14], oldPw[8..16]).Some?
    ensures r.Some? ==>
              && r.value[0..8] == p.des(sessionKey[0..7], oldPw[0..8]).value
              && r.value[8..16] == p.des(sessionKey[7..14], oldPw[8..16]).value
  {
    match p.des(sessionKey[0..7], oldPw[0..8])
    case None => None
    case Some(lo) =>
      match p.des(sessionKey[7..14], oldPw[8..16])
      case None => None
      case Some(hi) => Some(lo + hi)
  }

  /**
   The two halves are independent: two old passwords that agree on one
   half give new passwords that agree on that half.
   */
  lemma GenPasswordHalvesIndependent(p: Primitives, sessionKey: Bytes16, a: Bytes16, b: Bytes16)
    requires GenPassword(p, sessionKey, a).Some? && GenPassword(p, sessionKey, b).Some?
    ensures a[0..8] == b[0..8] ==> GenPassword(p, sessionKey, a).value[0..8] == GenPassword(p, sessionKey, b).value[0..8]
    ensures a[8..16] == b[8..16] ==> GenPassword(p, sessionKey, a).value[8..16] == GenPassword(p, sessionKey, b).value[8..16]
  {
  }

  /**
   A failed first pass fails the whole derivation whatever the old
   password's second half and the session key's bytes [7, 14) are.
   */
  lemma GenPasswordFirstFailureShortCircuits(p: Primitives, k1: Bytes16, k2: Bytes16, a: Bytes16, b: Bytes16)
    requires k1[0..7] == k2[0..7] && a[0..8] == b[0..8]
    requires p.des(k1[0..7], a[0..8]).None?
    ensures GenPassword(p, k1, a) == None && GenPassword(p, k2, b) == None
  {
  }
}

=== FILE: crypto.dfy ===
/**
 The cryptographic collaborators, as uninterpreted functions supplied by
 the caller: DES (smb_auth_DES), the NTLM password hash (smb_auth_ntlm_hash),
 MD5 over the PKCS#11 digest session and HMAC-MD5 (smb_auth_hmac_md5).
 No property of any of them is assumed; None is a primitive failure.
 */
module Crypto {
  import opened NetrTypes

  datatype Primitives = Primitives(
    /** DES of one 8-byte block under a 7-byte key. */
    des: (DesKey, Block) -> Option<Block>,
    /** NTLM hash of a password (SMBAUTH_HASH_SZ = 16 bytes). */
    ntlmHash: seq<byte> -> Option<Bytes16>,
    /** MD5 of the whole byte stream fed to the digest session. */
    md5: seq<byte> -> Bytes16,
    /** HMAC-MD5 of a digest keyed by the NTLM hash. */
    hmacMd5: (Bytes16, Bytes16) -> Option<Bytes16>)

  /** The PKCS#11 calls made while digesting the session-key input, in order. */
  datatype DigestStep =
    | GetMechSession
    | DigestInit
    | UpdateZeroBuf
    | UpdateClientChallenge
    | UpdateServerChallenge
    | DigestFinal

  /**
   Which PKCS#11 call, if any, fails during netr_gen_skey128. The calls
   before it succeed and none after it is made.
   */
  type DigestFault = Option<DigestStep>
}

=== FILE: le32.dfy ===
/**
 Little-endian 32-bit word access (LE_IN32 / LE_OUT32) and DWORD addition,
 which wraps modulo 2^32.
 */
module LittleEndian {
  import opened NetrTypes

  const WORD_MOD: int := 0x1_0000_0000

  /** LE_IN32: the word whose least significant byte is b[0]. */
  function LeIn32(b: seq<byte>): uint32
    requires |b| == 4
  {
    b[0] as int + 0x100 * (b[1] as int) + 0x1_0000 * (b[2] as int) + 0x100_0000 * (b[3] as int)
  }

  /** LE_OUT32: the four bytes of x, least significant first. */
  function LeOut32(x: uint32): (b: seq<byte>)
    ensures |b| == 4
  {
    [x % 0x100, (x / 0x100) % 0x100, (x / 0x1_0000) % 0x100, x / 0x100_0000]
  }

  /** Addition of two DWORDs as C performs it on uint32_t. */
  function Add32(a: uint32, b: uint32): (r: uint32)
    ensures r == a + b || r == a + b - WORD_MOD
    ensures r < a <==> a + b >= WORD_MOD
  {
    (a + b) % WORD_MOD
  }

  /** Decoding an encoded word gives the word back. */
  lemma LeInOut(x: uint32)
    ensures LeIn32(LeOut32(x)) == x
  {
    var q1 := x / 0x100;
    var q2 := x / 0x1_0000;
    var q3 := x / 0x100_0000;
    assert x == x % 0x100 + 0x100 * q1;
    assert q1 == q1 % 0x100 + 0x100 * q2;
    assert q2 == q2 % 0x100 + 0x100 * q3;
  }

  /** Encoding a decoded word gives the four bytes back. */
  lemma LeOutIn(b: seq<byte>)
    requires |b| == 4
    ensures LeOut32(LeIn32(b)) == b
  {
    var x := LeIn32(b);
    assert x % 0x100 == b[0];
    assert x / 0x100 == b[1] as int + 0x100 * (b[2] as int) + 0x1_0000 * (b[3] as int);
    assert x / 0x1_0000 == b[2] as int + 0x100 * (b[3] as int);
    assert x / 0x100_0000 == b[3];
  }
}

=== FILE: mitigation.dfy ===
/**
 The domain-controller mitigation of [MS-NRPC] section 3.1.4.1 step 7 and
 section 3.1.4.6 step 6: a challenge or credential is accepted only when at
 least one of its first five bytes occurs exactly once among those five.
 */
module DcMitigation {
  import opened NetrTypes

  /** The number of leading bytes the mitigation inspects. */
  const CHECKED: nat := 5

  /** buf[i] differs from every other byte of buf[0..5). */
  ghost predicate IsUniqueAt(buf: seq<byte>, i: nat)
    requires |buf| >= CHECKED && i < CHECKED
  {
    forall j :: 0 <= j < CHECKED && j != i ==> buf[j] != buf[i]
  }

  /** Some byte of buf[0..5) appears exactly once there. */
  ghost predicate HasUniqueByte(buf: seq<byte>)
    requires |buf| >= CHECKED
  {
    exists i :: 0 <= i < CHECKED && IsUniqueAt(buf, i)
  }

  /**
   The inner loop: the first j in [j0, 5) other than i with buf[j] == buf[i],
   or 5 when the loop runs off the end.
   */
  function InnerScan(buf: seq<byte>, i: nat, j0: nat): (j: nat)
    requires |buf| >= CHECKED && i < CHECKED && j0 <= CHECKED
    ensures j0 <= j <= CHECKED
    ensures j < CHECKED ==> j != i && buf[j] == buf[i]
    ensures forall k :: j0 <= k < j && k != i ==> buf[k] != buf[i]
    decreases CHECKED - j0
  {
    if j0 == CHECKED then CHECKED
    else if i != j0 && buf[i] == buf[j0] then j0
    else InnerScan(buf, i, j0 + 1)
  }

  /** The outer loop from index i on: true at the first byte the inner loop finds no match for. */
  function OuterScan(buf: seq<byte>, i: nat): bool
    requires |buf| >= CHECKED && i <= CHECKED
    decreases CHECKED - i
  {
    if i == CHECKED then false
    else if InnerScan(buf, i, 0) == CHECKED then true
    else OuterScan(buf, i + 1)
  }

  /** passes_dc_mitigation. */
  function PassesDcMitigation(buf: seq<byte>): bool
    requires |buf| >= CHECKED
  {
    OuterScan(buf, 0)
  }

  /** The outer loop from index i returns true exactly when some byte at index i or later is unique. */
  lemma {:induction false} OuterScanMeaning(buf: seq<byte>, i: nat)
    requires |buf| >= CHECKED && i <= CHECKED
    ensures OuterScan(buf, i) <==> exists k :: i <= k < CHECKED && IsUniqueAt(buf, k)
    decreases CHECKED - i
  {
    if i < CHECKED {
      if InnerScan(buf, i, 0) == CHECKED {
        assert IsUniqueAt(buf, i);
      } else {
        OuterScanMeaning(buf, i + 1);
      }
    }
  }

  /** The check passes exactly when some byte of buf[0..5) is unique there. */
  lemma PassesDcMitigationMeaning(buf: seq<byte>)
    requires |buf| >= CHECKED
    ensures PassesDcMitigation(buf) <==> HasUniqueByte(buf)
  {
    OuterScanMeaning(buf, 0);
  }

  /** Only the first five bytes decide the outcome; bytes 5 onwards never matter. */
  lemma OnlyFirstFiveMatter(a: seq<byte>, b: seq<byte>)
    requires |a| >= CHECKED && |b| >= CHECKED
    requires a[..CHECKED] == b[..CHECKED]
    ensures PassesDcMitigation(a) == PassesDcMitigation(b)
  {
  }

  /** A buffer whose first five bytes are all equal fails; in particular an all-zero one. */
  lemma UniformPrefixFails(buf: seq<byte>)
    requires |buf| >= CHECKED
    requires forall k :: 0 <= k < CHECKED ==> buf[k] == buf[0]
    ensures !PassesDcMitigation(buf)
  {
  }

  /** The all-zero 8-byte block fails the mitigation. */
  lemma ZeroBlockFails()
    ensures !PassesDcMitigation(Zeros(CRED_DATA_SZ))
  {
  }

  /**
   Pairs and triples that cover all five bytes fail even when the values
   differ, e.g. [a, a, b, b, a]: every byte has a partner.
   */
  lemma EveryBytePairedFails(buf: seq<byte>, partner: seq<nat>)
    requires |buf| >= CHECKED && |partner| == CHECKED
    requires forall i :: 0 <= i < CHECKED ==> partner[i] < CHECKED && partner[i] != i
    requires forall i :: 0 <= i < CHECKED ==> buf[partner[i]] == buf[i]
    ensures !PassesDcMitigation(buf)
  {
    PassesDcMitigationMeaning(buf);
    forall i | 0 <= i < CHECKED
      ensures !IsUniqueAt(buf, i)
    {
      assert partner[i] != i && buf[partner[i]] == buf[i];
    }
  }

  /** A buffer whose first five bytes are pairwise distinct passes. */
  lemma DistinctPrefixPasses(buf: seq<byte>)
    requires |buf| >= CHECKED
    requires forall i, j :: 0 <= i < j < CHECKED ==> buf[i] != buf[j]
    ensures PassesDcMitigation(buf)
  {
  }
}

=== FILE: netlogon.dfy ===
/**
 The NETLOGON challenge/response client: configuration of the global
 state, the choice of bind for the secure channel, the ServerReqChallenge,
 ServerAuthenticate2 and ServerPasswordSet exchanges, and netlogon_auth,
 which drives challenge generation, the two exchanges and the teardown.

 The domain controller is a function from each request to its reply; the
 bind status, identity lookups, configured password, PKCS#11 faults,
 random words and the two helpers whose bodies are elsewhere
 (netr_setup_authenticator, netr_validate_chain) come from the caller.
 */
module Netlogon {
  import opened NetrTypes
  import opened LittleEndian
  import opened DcMitigation
  import opened NetrState
  import opened Crypto
  import opened SessionKey
  import opened Credentials

  /** The reply to NetrServerReqChallenge. */
  datatype ChallengeReply =
    | ChallengeCallFailed
    | ChallengeReplied(status: uint32, serverChallenge: Block)

  /** The reply to NetrServerAuthenticate2. */
  datatype Auth2Reply =
    | Auth2CallFailed
    | Auth2Replied(status: uint32, negotiateFlags: bv32, serverCredential: Block)

  /** A Netlogon authenticator: a credential and a timestamp. */
  datatype Authenticator = Authenticator(credential: Block, timestamp: uint32)

  /** The reply to NetrServerPasswordSet. */
  datatype PasswordSetReply =
    | PasswordSetCallFailed
    | PasswordSetReplied(status: uint32, returnAuthenticator: Authenticator)

  /** The domain controller, as the reply it gives to each request. */
  datatype DomainController = DomainController(
    reqChallenge: Block -> ChallengeReply,
    authenticate2: (bv32, Block) -> Auth2Reply,
    passwordSet: (Authenticator, Bytes16) -> PasswordSetReply)

  /** Two arc4random() words. */
  type RandomPair = (uint32, uint32)

  /** Everything outside this file that the client consults. */
  datatype Environment = Environment(
    prims: Primitives,
    dc: DomainController,
    openStatus: uint32,
    netbiosName: Option<string>,
    domainName: Option<string>,
    fqDomainName: Option<string>,
    machinePassword: Option<seq<byte>>,
    digestFault: DigestFault,
    randomWords: seq<RandomPair>,
    setupAuthenticator: NetrInfo -> Option<Authenticator>,
    validateChain: (NetrInfo, Authenticator) -> uint32)

  // ---------------------------------------------------------------------
  // netlogon_init_global and netr_open_secure

  /** netlogon_init_global: each set configuration bit disables one feature. */
  function InitGlobal(g: Globals, cfg: bv32): (r: Globals)
    ensures r.info.useSecureRpc <==> cfg & CFG_DISABLE_SECURE_RPC == 0
    ensures r.ssp.authVerifyResp <==> cfg & CFG_DISABLE_RESP_VERIF == 0
    ensures r.info.useLogonEx <==> cfg & CFG_DISABLE_SAMLOGONEX == 0
    ensures r.(info := r.info.(useSecureRpc := g.info.useSecureRpc, useLogonEx := g.info.useLogonEx),
               ssp := r.ssp.(authVerifyResp := g.ssp.authVerifyResp)) == g
  {
    g.(info := g.info.(useSecureRpc := cfg & CFG_DISABLE_SECURE_RPC == 0,
                       useLogonEx := cfg & CFG_DISABLE_SAMLOGONEX == 0),
       ssp := g.ssp.(authVerifyResp := cfg & CFG_DISABLE_RESP_VERIF == 0))
  }

  /** A later configuration replaces an earlier one entirely. */
  lemma InitGlobalLastWins(g: Globals, a: bv32, b: bv32)
    ensures InitGlobal(InitGlobal(g, a), b) == InitGlobal(g, b)
  {
  }

  /** Configuration bits other than the three defined ones are ignored. */
  lemma InitGlobalIgnoresOtherBits(g: Globals, a: bv32, b: bv32)
    requires a & 0x7 == b & 0x7
    ensures InitGlobal(g, a) == InitGlobal(g, b)
  {
  }

  /** The bind netr_open_secure makes. */
  datatype BindKind = UnauthenticatedBind | SecureBind(contextId: uint32)

  datatype OpenOutcome = OpenOutcome(status: uint32, bind: BindKind, globals: Globals)

  /**
   netr_open_secure: a secure bind exactly when SECURE_RPC was negotiated;
   the secure bind takes the next auth_context_id. bindStatus is what the
   transport returns for the bind made.
   */
  function OpenSecure(g: Globals, bindStatus: uint32): (r: OpenOutcome)
    ensures r.status == bindStatus
    ensures r.bind.SecureBind? <==> g.info.negoFlags & NEGO_SECURE_RPC_FLAG != 0
    ensures r.bind.SecureBind? ==>
              && r.bind.contextId == g.authContextCounter
              && r.globals.ssp.authContextId == g.authContextCounter
              && r.globals.ssp.authVerifyResp == g.ssp.authVerifyResp
              && r.globals.authContextCounter == Add32(g.authContextCounter, 1)
              && r.globals.(ssp := g.ssp, authContextCounter := g.authContextCounter) == g
    ensures r.bind.UnauthenticatedBind? ==> r.globals == g
  {
    if g.info.negoFlags & NEGO_SECURE_RPC_FLAG != 0 then
      var id := g.authContextCounter;
      OpenOutcome(bindStatus, SecureBind(id),
                  g.(ssp := g.ssp.(authContextId := id), authContextCounter := Add32(id, 1)))
    else
      OpenOutcome(bindStatus, UnauthenticatedBind, g)
  }

  /** Two secure opens in a row use different context ids. */
  lemma SecureOpensUseDistinctContextIds(g: Globals, s1: uint32, s2: uint32)
    requires g.info.negoFlags & NEGO_SECURE_RPC_FLAG != 0
    ensures var first := OpenSecure(g, s1);
            var second := OpenSecure(first.globals, s2);
            second.bind.SecureBind? && second.bind.contextId != first.bind.contextId
  {
  }

  // ---------------------------------------------------------------------
  // netr_server_req_challenge

  datatype StepOutcome = StepOutcome(rc: int, info: NetrInfo)

  /**
   netr_server_req_challenge: sends the stored client challenge; on a
   reply with status 0 stores the server challenge and returns 0,
   otherwise returns -1 and changes nothing.
   */
  function ServerReqChallenge(info: NetrInfo, dc: DomainController): (r: StepOutcome)
    ensures r.rc == 0 || r.rc == -1
    ensures var reply := dc.reqChallenge(info.clientChallenge);
            r.rc == 0 <==> reply.ChallengeReplied? && reply.status == 0
    ensures r.rc == 0 ==> r.info == info.(serverChallenge := dc.reqChallenge(info.clientChallenge).serverChallenge)
    ensures r.rc != 0 ==> r.info == info
  {
    match dc.reqChallenge(info.clientChallenge)
    case ChallengeCallFailed => StepOutcome(-1, info)
    case ChallengeReplied(status, sc) =>
      if status != 0 then StepOutcome(-1, info)
      else StepOutcome(0, info.(serverChallenge := sc))
  }

  // ---------------------------------------------------------------------
  // netr_server_authenticate2

  /** The session-key algorithm chosen for a session. */
  datatype KeyAlgorithm = Strong | Legacy

  /** The fields of the NetrServerAuthenticate2 request this model tracks. */
  datatype Auth2Request = Auth2Request(negotiateFlags: bv32, clientCredential: Block)

  datatype Auth2Outcome = Auth2Outcome(rc: int, info: NetrInfo, algorithm: KeyAlgorithm, sent: Option<Auth2Request>)

  /**
   a and b agree on every field netr_server_authenticate2 leaves alone: all
   but the key material, the two credentials and the negotiate flags.
   */
  predicate SameIdentity(a: NetrInfo, b: NetrInfo)
  {
    && a.flags == b.flags
    && a.hostname == b.hostname
    && a.server == b.server
    && a.nbDomain == b.nbDomain
    && a.fqdnDomain == b.fqdnDomain
    && a.clientChallenge == b.clientChallenge
    && a.serverChallenge == b.serverChallenge
    && a.useSecureRpc == b.useSecureRpc
    && a.useLogonEx == b.useLogonEx
  }

  /**
   The negotiate flags requested: netr_server_auth2_flags, with SECURE_RPC
   removed when secure RPC is disabled; every other bit passes through.
   */
  function RequestedFlags(auth2Flags: bv32, useSecureRpc: bool): (f: bv32)
    ensures f & !NEGO_SECURE_RPC_FLAG == auth2Flags & !NEGO_SECURE_RPC_FLAG
    ensures f & NEGO_SECURE_RPC_FLAG != 0 <==> useSecureRpc && auth2Flags & NEGO_SECURE_RPC_FLAG != 0
  {
    if useSecureRpc then auth2Flags else auth2Flags & !NEGO_SECURE_RPC_FLAG
  }

  /** With the initial netr_server_auth2_flags the request is BASE|STRONGKEY|SECURE_RPC, or BASE|STRONGKEY. */
  lemma DefaultRequestedFlags(useSecureRpc: bool)
    ensures RequestedFlags(DEFAULT_AUTH2_FLAGS, useSecureRpc) ==
              if useSecureRpc then NEGO_BASE_FLAGS | NEGO_STRONGKEY_FLAG | NEGO_SECURE_RPC_FLAG
              else NEGO_BASE_FLAGS | NEGO_STRONGKEY_FLAG
  {
  }

  /** The session-key derivation netr_server_authenticate2 runs for an algorithm. */
  function DeriveKey(algorithm: KeyAlgorithm, info: NetrInfo, env: Environment): KeyOutcome
  {
    if algorithm == Strong then GenSkey128(info, env.machinePassword, env.digestFault, env.prims)
    else GenSkey64(info, env.machinePassword, env.prims)
  }

  /**
   The part of netr_server_authenticate2 after a successful key
   derivation: the client and then the server credential are computed
   from the session key and, when both succeed, the request is sent.
   */
  function ComputeAndSend(info: NetrInfo, flags: bv32, algorithm: KeyAlgorithm, env: Environment): (r: Auth2Outcome)
    ensures r.algorithm == algorithm
    ensures var cc := Credential(env.prims, info.sessionKey, info.clientChallenge, 0);
            var sc := Credential(env.prims, info.sessionKey, info.serverChallenge, 0);
            && (r.sent.Some? <==> cc.Some? && sc.Some?)
            && (r.sent.None? ==> r.rc == -1)
            && r.info.clientCredential == (if cc.Some? then cc.value else info.clientCredential)
            && r.info.serverCredential == (if cc.Some? && sc.Some? then sc.value else info.serverCredential)
    ensures r.sent.Some? ==> r.sent.value == Auth2Request(flags, r.info.clientCredential)
    ensures var reply := env.dc.authenticate2(flags, r.info.clientCredential);
            r.info.negoFlags == (if r.sent.Some? && reply.Auth2Replied? && reply.status == 0 then reply.negotiateFlags
                                 else info.negoFlags)
    ensures SameIdentity(r.info, info)
    ensures r.info.sessionKey == info.sessionKey && r.info.sessionKeyLen == info.sessionKeyLen
            && r.info.password == info.password
    ensures r.rc == 0 <==>
              && r.sent.Some?
              && env.dc.authenticate2(flags, r.sent.value.clientCredential)
                   == Auth2Replied(0, r.info.negoFlags, r.info.serverCredential)
  {
    var client := GenCredentials(env.prims, info.sessionKey, info.clientChallenge, 0, info.clientCredential, false);
    var i2 := info.(clientCredential := client.cred);
    if client.status != AuthSuccess then Auth2Outcome(-1, i2, algorithm, None)
    else
      var server := GenCredentials(env.prims, i2.sessionKey, i2.serverChallenge, 0, i2.serverCredential, false);
      var i3 := i2.(serverCredential := server.cred);
      if server.status != AuthSuccess then Auth2Outcome(-1, i3, algorithm, None)
      else SendAuthenticate2(i3, flags, algorithm, env)
  }

  /**
   The NetrServerAuthenticate2 call itself: the request carries the
   stored client credential; on a reply with status 0 the returned flags
   are stored and the result is memcmp of the stored and the returned
   server credential, otherwise -1 with nothing changed.
   */
  function SendAuthenticate2(info: NetrInfo, flags: bv32, algorithm: KeyAlgorithm, env: Environment): (r: Auth2Outcome)
    ensures r.algorithm == algorithm
    ensures r.sent == Some(Auth2Request(flags, info.clientCredential))
    ensures var reply := env.dc.authenticate2(flags, info.clientCredential);
            r.info == (if reply.Auth2Replied? && reply.status == 0 then info.(negoFlags := reply.negotiateFlags) else info)
    ensures r.rc == 0 <==> env.dc.authenticate2(flags, info.clientCredential) == Auth2Replied(0, r.info.negoFlags, info.serverCredential)
  {
    var request := Auth2Request(flags, info.clientCredential);
    match env.dc.authenticate2(flags, info.clientCredential)
    case Auth2CallFailed => Auth2Outcome(-1, info, algorithm, Some(request))
    case Auth2Replied(status, negotiated, returned) =>
      if status != 0 then Auth2Outcome(-1, info, algorithm, Some(request))
      else Auth2Outcome(Memcmp(info.serverCredential, returned), info.(negoFlags := negotiated),
                        algorithm, Some(request))
  }

  /**
   netr_server_authenticate2 once the key derivation has produced k: a
   failed derivation installs k and fails before anything is sent,
   otherwise the credentials are computed from k's session key and the
   request is sent when both succeed.
   */
  function AuthenticateWithKey(info: NetrInfo, k: KeyOutcome, flags: bv32, algorithm: KeyAlgorithm,
                               env: Environment): (r: Auth2Outcome)
    ensures r.algorithm == algorithm
    ensures k.status != AuthSuccess ==> r.rc == -1 && r.sent.None? && r.info == Install(info, k)
    ensures r.info.sessionKey == k.sessionKey && r.info.sessionKeyLen == k.sessionKeyLen
            && r.info.password == k.password
    ensures var cc := Credential(env.prims, k.sessionKey, info.clientChallenge, 0);
            var sc := Credential(env.prims, k.sessionKey, info.serverChallenge, 0);
            && (r.sent.Some? <==> k.status == AuthSuccess && cc.Some? && sc.Some?)
            && r.info.clientCredential == (if k.status == AuthSuccess && cc.Some? then cc.value
                                           else info.clientCredential)
            && r.info.serverCredential == (if k.status == AuthSuccess && cc.Some? && sc.Some? then sc.value
                                           else info.serverCredential)
    ensures r.sent.Some? ==> r.sent.value == Auth2Request(flags, r.info.clientCredential)
    ensures var reply := env.dc.authenticate2(flags, r.info.clientCredential);
            r.info.negoFlags == (if r.sent.Some? && reply.Auth2Replied? && reply.status == 0 then reply.negotiateFlags
                                 else info.negoFlags)
    ensures SameIdentity(r.info, info)
    ensures r.rc == 0 <==>
              && r.sent.Some?
              && env.dc.authenticate2(r.sent.value.negotiateFlags, r.sent.value.clientCredential)
                   == Auth2Replied(0, r.info.negoFlags, r.info.serverCredential)
  {
    if k.status != AuthSuccess then Auth2Outcome(-1, Install(info, k), algorithm, None)
    else ComputeAndSend(Install(info, k), flags, algorithm, env)
  }

  /** The algorithm the requested STRONGKEY bit selects. */
  function AlgorithmFor(g: Globals): (a: KeyAlgorithm)
    ensures a == Strong <==> RequestedFlags(g.auth2Flags, g.info.useSecureRpc) & NEGO_STRONGKEY_FLAG != 0
  {
    if RequestedFlags(g.auth2Flags, g.info.useSecureRpc) & NEGO_STRONGKEY_FLAG != 0 then Strong else Legacy
  }

  /** The key derivation netr_server_authenticate2 runs on g. */
  function KeyFor(g: Globals, env: Environment): KeyOutcome
  {
    DeriveKey(AlgorithmFor(g), g.info, env)
  }

  /**
   netr_server_authenticate2: derives the session key with the algorithm
   the requested STRONGKEY bit selects, computes both credentials from the
   derived key, sends the request only when all three succeed, stores the
   returned negotiate flags after a reply with status 0, and returns the
   comparison of the computed and the returned server credential. Only the
   key material, the two credentials and the negotiate flags change.
   */
  function ServerAuthenticate2(g: Globals, env: Environment): (r: Auth2Outcome)
    ensures r.algorithm == AlgorithmFor(g)
    ensures var k := KeyFor(g, env);
            k.status != AuthSuccess ==> r.rc == -1 && r.sent.None? && r.info == Install(g.info, k)
    ensures var k := KeyFor(g, env);
            && r.info.sessionKey == k.sessionKey
            && r.info.sessionKeyLen == k.sessionKeyLen
            && r.info.password == k.password
    ensures var k := KeyFor(g, env);
            var cc := Credential(env.prims, k.sessionKey, g.info.clientChallenge, 0);
            var sc := Credential(env.prims, k.sessionKey, g.info.serverChallenge, 0);
            && (r.sent.Some? <==> k.status == AuthSuccess && cc.Some? && sc.Some?)
            && r.info.clientCredential == (if k.status == AuthSuccess && cc.Some? then cc.value
                                           else g.info.clientCredential)
            && r.info.serverCredential == (if k.status == AuthSuccess && cc.Some? && sc.Some? then sc.value
                                           else g.info.serverCredential)
    ensures r.sent.Some? ==>
              r.sent.value == Auth2Request(RequestedFlags(g.auth2Flags, g.info.useSecureRpc), r.info.clientCredential)
    ensures var reply := env.dc.authenticate2(RequestedFlags(g.auth2Flags, g.info.useSecureRpc), r.info.clientCredential);
            r.info.negoFlags == (if r.sent.Some? && reply.Auth2Replied? && reply.status == 0 then reply.negotiateFlags
                                 else g.info.negoFlags)
    ensures SameIdentity(r.info, g.info)
    ensures r.rc == 0 <==>
              && r.sent.Some?
              && env.dc.authenticate2(r.sent.value.negotiateFlags, r.sent.value.clientCredential)
                   == Auth2Replied(0, r.info.negoFlags, r.info.serverCredential)
  {
    AuthenticateWithKey(g.info, KeyFor(g, env), RequestedFlags(g.auth2Flags, g.info.useSecureRpc), AlgorithmFor(g), env)
  }

  /**
   While netr_server_auth2_flags keeps its initial value the strong key is
   derived: the session key is that of netr_gen_skey128, and its failure
   fails the authentication before anything is sent.
   */
  lemma DefaultFlagsSelectStrongKey(g: Globals, env: Environment)
    requires g.auth2Flags == DEFAULT_AUTH2_FLAGS
    ensures var k := GenSkey128(g.info, env.machinePassword, env.digestFault, env.prims);
            var r := ServerAuthenticate2(g, env);
            && r.algorithm == Strong
            && r.info.sessionKey == k.sessionKey
            && r.info.sessionKeyLen == k.sessionKeyLen
            && (k.status != AuthSuccess ==> r.rc == -1 && r.sent.None?)
  {
  }

  /** Flag set a is contained in flag set b. */
  predicate FlagsSubset(a: bv32, b: bv32)
  {
    a & !b == 0
  }

  /**
   With secure RPC disabled by configuration, and a domain controller that
   returns a subset of the requested flags, a successful authentication
   leaves SECURE_RPC out of the negotiated flags and netr_open_secure makes
   an unauthenticated bind.
   */
  lemma DisabledSecureRpcGivesUnauthenticatedBind(g: Globals, cfg: bv32, env: Environment, bindStatus: uint32)
    requires cfg & CFG_DISABLE_SECURE_RPC != 0
    requires forall f: bv32, c: Block {:trigger env.dc.authenticate2(f, c)} ::
               env.dc.authenticate2(f, c).Auth2Replied? ==> FlagsSubset(env.dc.authenticate2(f, c).negotiateFlags, f)
    requires ServerAuthenticate2(InitGlobal(g, cfg), env).rc == 0
    ensures var a := ServerAuthenticate2(InitGlobal(g, cfg), env);
            a.info.negoFlags & NEGO_SECURE_RPC_FLAG == 0
            && OpenSecure(InitGlobal(g, cfg).(info := a.info), bindStatus).bind == UnauthenticatedBind
  {
  }

  // ---------------------------------------------------------------------
  // netr_server_password_set

  /** The password buffer with its first 16 bytes replaced by a new OWF password. */
  function SavePassword(pw: seq<byte>, newPw: Bytes16): (r: seq<byte>)
    ensures OwfView(r) == newPw
    ensures forall i :: 16 <= i ==> PasswordByte(r, i) == PasswordByte(pw, i)
  {
    var r := if |pw| > 16 then newPw + pw[16..] else newPw;
    assert forall i :: 0 <= i < 16 ==> OwfView(r)[i] == newPw[i];
    r
  }

  datatype PasswordSetOutcome = PasswordSetOutcome(rc: int, info: NetrInfo, sentPassword: Option<Bytes16>)

  /**
   netr_server_password_set: the new password sent is netr_gen_password of
   the first 16 bytes of the password buffer; the call returns 0 whenever
   the domain controller replies with status 0, and the new password is
   kept only when the returned authenticator validates.
   */
  function ServerPasswordSet(info: NetrInfo, env: Environment): (r: PasswordSetOutcome)
    ensures r.rc == 0 || r.rc == -1
    ensures r.sentPassword.Some? <==>
              env.setupAuthenticator(info).Some? && GenPassword(env.prims, info.sessionKey, OwfView(info.password)).Some?
    ensures r.info.(password := info.password) == info
    ensures r.sentPassword.Some? ==>
              && env.setupAuthenticator(info).Some?
              && GenPassword(env.prims, info.sessionKey, OwfView(info.password)) == r.sentPassword
    ensures r.rc == 0 <==>
              && r.sentPassword.Some?
              && env.dc.passwordSet(env.setupAuthenticator(info).value, r.sentPassword.value).PasswordSetReplied?
              && env.dc.passwordSet(env.setupAuthenticator(info).value, r.sentPassword.value).status == 0
    ensures r.info.password ==
              if r.rc == 0 && env.validateChain(info, env.dc.passwordSet(env.setupAuthenticator(info).value,
                                                                        r.sentPassword.value).returnAuthenticator) == 0
              then SavePassword(info.password, r.sentPassword.value)
              else info.password
  {
    match env.setupAuthenticator(info)
    case None => PasswordSetOutcome(-1, info, None)
    case Some(auth) =>
      match GenPassword(env.prims, info.sessionKey, OwfView(info.password))
      case None => PasswordSetOutcome(-1, info, None)
      case Some(newPw) =>
        match env.dc.passwordSet(auth, newPw)
        case PasswordSetCallFailed => PasswordSetOutcome(-1, info, Some(newPw))
        case PasswordSetReplied(status, returned) =>
          if status != 0 then PasswordSetOutcome(-1, info, Some(newPw))
          else if env.validateChain(info, returned) == 0 then
            PasswordSetOutcome(0, info.(password := SavePassword(info.password, newPw)), Some(newPw))
          else PasswordSetOutcome(0, info, Some(newPw))
  }

  /** A returned authenticator that fails validation still yields 0, and the old password stays. */
  lemma PasswordSetIgnoresChainFailure(info: NetrInfo, env: Environment)
    requires env.setupAuthenticator(info).Some?
    requires GenPassword(env.prims, info.sessionKey, OwfView(info.password)).Some?
    requires var reply := env.dc.passwordSet(env.setupAuthenticator(info).value,
                                             GenPassword(env.prims, info.sessionKey, OwfView(info.password)).value);
             reply.PasswordSetReplied? && reply.status == 0 && env.validateChain(info, reply.returnAuthenticator) != 0
    ensures ServerPasswordSet(info, env).rc == 0
    ensures ServerPasswordSet(info, env).info == info
  {
  }

  // ---------------------------------------------------------------------
  // netlogon_auth

  /** The client challenge built from two random words, each stored little-endian. */
  function ChallengeFromWords(w: RandomPair): (cc: Block)
    ensures LeIn32(cc[0..4]) == w.0 && LeIn32(cc[4..8]) == w.1
  {
    var cc := LeOut32(w.0) + LeOut32(w.1);
    assert cc[0..4] == LeOut32(w.0) && cc[4..8] == LeOut32(w.1);
    LeInOut(w.0);
    LeInOut(w.1);
    cc
  }

  /** Some supplied pair of random words gives a challenge that passes the mitigation. */
  ghost predicate ChallengeAvailable(words: seq<RandomPair>)
  {
    exists k :: 0 <= k < |words| && PassesDcMitigation(ChallengeFromWords(words[k]))
  }

  /**
   The do/while loop of netlogon_auth: draws pairs of random words until
   the challenge they form passes the mitigation. netlogon_auth keeps
   drawing for as long as it takes; here the words are supplied and one of
   them passes.
   */
  method GenerateClientChallenge(words: seq<RandomPair>) returns (cc: Block, used: nat)
    requires ChallengeAvailable(words)
    ensures used < |words| && cc == ChallengeFromWords(words[used])
    ensures PassesDcMitigation(cc)
    ensures forall j :: 0 <= j < used ==> !PassesDcMitigation(ChallengeFromWords(words[j]))
  {
    ghost var k :| 0 <= k < |words| && PassesDcMitigation(ChallengeFromWords(words[k]));
    used := 0;
    cc := ChallengeFromWords(words[0]);
    while !PassesDcMitigation(cc)
      invariant used <= k && cc == ChallengeFromWords(words[used])
      invariant forall j :: 0 <= j < used ==> !PassesDcMitigation(ChallengeFromWords(words[j]))
      decreases k - used
    {
      used := used + 1;
      cc := ChallengeFromWords(words[used]);
    }
  }

  /** The RPC operations netlogon_auth performs on its handle, in order. */
  datatype RpcEvent =
    | Bind
    | ReqChallengeCall(challenge: Block)
    | Authenticate2Call(negotiateFlags: bv32, clientCredential: Block)
    | Unbind

  /** The outcome of the two exchanges: return code, state after them, calls made after the bind. */
  datatype ExchangeOutcome = ExchangeOutcome(rc: int, info: NetrInfo, sent: seq<RpcEvent>)

  /** Index u holds the first pair of random words whose challenge passes the mitigation. */
  predicate FirstPassing(words: seq<RandomPair>, u: nat)
  {
    && u < |words|
    && PassesDcMitigation(ChallengeFromWords(words[u]))
    && forall j :: 0 <= j < u ==> !PassesDcMitigation(ChallengeFromWords(words[j]))
  }

  /**
   What the challenge exchange followed by ServerAuthenticate2 does, read
   off the domain controller's replies: the stored client challenge is
   sent; a reply with status 0 supplies the server challenge that the
   authentication uses, and its request is sent when it gets that far;
   any other reply ends the exchange with -1 and nothing changed.
   */
  ghost function Exchange(g: Globals, env: Environment): ExchangeOutcome
  {
    var cc := g.info.clientChallenge;
    var reply := env.dc.reqChallenge(cc);
    if reply.ChallengeReplied? && reply.status == 0 then
      var a := ServerAuthenticate2(g.(info := g.info.(serverChallenge := reply.serverChallenge)), env);
      var auth := if a.sent.Some? then [Authenticate2Call(a.sent.value.negotiateFlags, a.sent.value.clientCredential)]
                  else [];
      ExchangeOutcome(a.rc, a.info, [ReqChallengeCall(cc)] + auth)
    else ExchangeOutcome(-1, g.info, [ReqChallengeCall(cc)])
  }

  /**
   The shape of the exchange: the challenge call always comes first and is
   the only call when the challenge is refused; a second call is the
   authentication request, made only after a status-0 challenge reply;
   and 0 is returned exactly when that request got a status-0 reply
   carrying the stored server credential.
   */
  lemma ExchangeShape(g: Globals, env: Environment)
    ensures var x := Exchange(g, env);
            && 1 <= |x.sent| <= 2 && x.sent[0] == ReqChallengeCall(g.info.clientChallenge)
            && x.info.clientChallenge == g.info.clientChallenge
            && x.info.flags == g.info.flags
            && (|x.sent| == 2 ==>
                  && x.sent[1].Authenticate2Call?
                  && env.dc.reqChallenge(g.info.clientChallenge) == ChallengeReplied(0, x.info.serverChallenge))
            && (x.rc == 0 <==>
                  && |x.sent| == 2
                  && env.dc.authenticate2(x.sent[1].negotiateFlags, x.sent[1].clientCredential)
                       == Auth2Replied(0, x.info.negoFlags, x.info.serverCredential))
  {
  }

  /**
   The part of netlogon_auth after the identity lookups: draw a challenge
   that passes the mitigation, send it, and on success authenticate. sent
   lists the calls made after the bind.
   */
  method ChallengeAndAuthenticate(g: Globals, env: Environment)
    returns (rc: int, info: NetrInfo, sent: seq<RpcEvent>, drawn: nat)
    requires ChallengeAvailable(env.randomWords)
    ensures FirstPassing(env.randomWords, drawn)
    ensures var start := g.(info := g.info.(clientChallenge := ChallengeFromWords(env.randomWords[drawn])));
            ExchangeOutcome(rc, info, sent) == Exchange(start, env)
    ensures info.flags == g.info.flags
  {
    var cc;
    cc, drawn := GenerateClientChallenge(env.randomWords);
    info := g.info.(clientChallenge := cc);
    sent := [ReqChallengeCall(cc)];

    var challenged := ServerReqChallenge(info, env.dc);
    info := challenged.info;
    rc := challenged.rc;
    if rc == 0 {
      var authed := ServerAuthenticate2(g.(info := info), env);
      if authed.sent.Some? {
        sent := sent + [Authenticate2Call(authed.sent.value.negotiateFlags, authed.sent.value.clientCredential)];
      }
      info := authed.info;
      rc := authed.rc;
    }
    ExchangeShape(g.(info := g.info.(clientChallenge := cc)), env);
  }

  /** The three identity lookups of netlogon_auth all succeed. */
  predicate IdentityKnown(env: Environment)
  {
    env.netbiosName.Some? && env.domainName.Some? && env.fqDomainName.Some?
  }

  /**
   The state netlogon_auth sets up before the challenge: the session key
   zeroed, the caller's flags stored, then each lookup's result stored in
   turn until the first lookup that fails.
   */
  function Identify(info: NetrInfo, server: string, flags: uint32, env: Environment): NetrInfo
  {
    var cleared := info.(sessionKey := Zeros(SESSKEY128_SZ), sessionKeyLen := 0, flags := flags);
    if env.netbiosName.None? then cleared
    else
      var named := cleared.(hostname := env.netbiosName.value, server := server);
      if env.domainName.None? then named
      else
        var domained := named.(nbDomain := env.domainName.value);
        if env.fqDomainName.None? then domained
        else domained.(fqdnDomain := env.fqDomainName.value)
  }

  /**
   What netlogon_auth makes of an exchange outcome (rc, exchanged, sent)
   of the shape ExchangeShape gives, when it brackets the calls with the bind and the
   unbind and sets NETR_FLG_VALID on 0.
   */
  lemma BracketedOutcome(rc: int, exchanged: NetrInfo, sent: seq<RpcEvent>, cc: Block, flags: uint32, dc: DomainController,
                         status: uint32, info: NetrInfo, events: seq<RpcEvent>)
    requires 1 <= |sent| <= 2 && sent[0] == ReqChallengeCall(cc)
    requires exchanged.clientChallenge == cc && exchanged.flags == flags
    requires |sent| == 2 ==>
               && sent[1].Authenticate2Call?
               && dc.reqChallenge(cc) == ChallengeReplied(0, exchanged.serverChallenge)
    requires rc == 0 <==>
               && |sent| == 2
               && dc.authenticate2(sent[1].negotiateFlags, sent[1].clientCredential)
                    == Auth2Replied(0, exchanged.negoFlags, exchanged.serverCredential)
    requires events == [Bind] + sent + [Unbind]
    requires status == (if rc == 0 then NT_STATUS_SUCCESS else NT_STATUS_UNSUCCESSFUL)
    requires info == (if rc == 0 then exchanged.(flags := WithValid(exchanged.flags)) else exchanged)
    ensures 3 <= |events| <= 4 && events[0] == Bind && events[|events| - 1] == Unbind
    ensures events[1] == ReqChallengeCall(info.clientChallenge)
    ensures |events| == 4 ==>
              && events[2].Authenticate2Call?
              && dc.reqChallenge(info.clientChallenge) == ChallengeReplied(0, info.serverChallenge)
    ensures info.flags == (if status == NT_STATUS_SUCCESS then WithValid(flags) else flags)
    ensures status == NT_STATUS_SUCCESS <==>
              && |events| == 4
              && dc.authenticate2(events[2].negotiateFlags, events[2].clientCredential)
                   == Auth2Replied(0, info.negoFlags, info.serverCredential)
  {
    assert events[1] == sent[0] && (|sent| == 2 ==> events[2] == sent[1]);
  }

  /**
   netlogon_auth once the bind and the three lookups have succeeded: the
   exchanges run on a fresh challenge, NETR_FLG_VALID is set when they
   return 0, and the handle is unbound.
   */
  method AuthenticateIdentified(g: Globals, env: Environment)
    returns (status: uint32, info: NetrInfo, events: seq<RpcEvent>, drawn: nat)
    requires ChallengeAvailable(env.randomWords)
    ensures FirstPassing(env.randomWords, drawn)
    ensures var x := Exchange(g.(info := g.info.(clientChallenge := ChallengeFromWords(env.randomWords[drawn]))), env);
            && events == [Bind] + x.sent + [Unbind]
            && (status == NT_STATUS_SUCCESS <==> x.rc == 0)
            && info == (if x.rc == 0 then x.info.(flags := WithValid(x.info.flags)) else x.info)
    ensures 3 <= |events| <= 4 && events[0] == Bind && events[|events| - 1] == Unbind
    ensures events[1] == ReqChallengeCall(info.clientChallenge) && PassesDcMitigation(info.clientChallenge)
    ensures |events| == 4 ==>
              && events[2].Authenticate2Call?
              && env.dc.reqChallenge(info.clientChallenge) == ChallengeReplied(0, info.serverChallenge)
    ensures status == NT_STATUS_SUCCESS || status == NT_STATUS_UNSUCCESSFUL
    ensures info.flags == (if status == NT_STATUS_SUCCESS then WithValid(g.info.flags) else g.info.flags)
    ensures status == NT_STATUS_SUCCESS <==>
              && |events| == 4
              && env.dc.authenticate2(events[2].negotiateFlags, events[2].clientCredential)
                   == Auth2Replied(0, info.negoFlags, info.serverCredential)
  {
    var rc, sent;
    rc, info, sent, drawn := ChallengeAndAuthenticate(g, env);
    ghost var start := g.(info := g.info.(clientChallenge := ChallengeFromWords(env.randomWords[drawn])));
    ghost var x := Exchange(start, env);
    ExchangeShape(start, env);
    ghost var exchanged := info;
    assert exchanged == x.info && rc == x.rc && sent == x.sent;
    if rc == 0 {
      info := info.(flags := WithValid(info.flags));
    }
    assert info == (if rc == 0 then exchanged.(flags := WithValid(exchanged.flags)) else exchanged);
    events := [Bind] + sent + [Unbind];
    status := if rc != 0 then NT_STATUS_UNSUCCESSFUL else NT_STATUS_SUCCESS;
    BracketedOutcome(rc, exchanged, sent, start.info.clientChallenge, g.info.flags, env.dc, status, info, events);
  }

  /**
   netlogon_auth. Returns the bind status when the bind fails (and then
   does not unbind); otherwise unbinds on every path and returns
   NT_STATUS_SUCCESS exactly when the challenge exchange and the
   authentication both return 0, which also sets NETR_FLG_VALID.
   */
  method NetlogonAuth(g: Globals, server: string, domain: string, flags: uint32, env: Environment)
    returns (status: uint32, g': Globals, events: seq<RpcEvent>, drawn: nat)
    requires env.openStatus == 0 && IdentityKnown(env) ==> ChallengeAvailable(env.randomWords)
    ensures env.openStatus != 0 ==> status == env.openStatus && g' == g && events == [Bind]
    ensures env.openStatus == 0 ==>
              && 2 <= |events| <= 4 && events[0] == Bind && events[|events| - 1] == Unbind
              && (|events| >= 3 ==> events[1] == ReqChallengeCall(g'.info.clientChallenge))
              && (|events| == 4 ==> events[2].Authenticate2Call?)
              && (status == NT_STATUS_SUCCESS || status == NT_STATUS_UNSUCCESSFUL)
              && g'.info.flags == (if status == NT_STATUS_SUCCESS then WithValid(flags) else flags)
    ensures |events| >= 3 ==> PassesDcMitigation(events[1].challenge)
    ensures env.openStatus == 0 && (env.netbiosName.None? || env.domainName.None? || env.fqDomainName.None?) ==>
              && events == [Bind, Unbind]
              && g'.info == g.info.(sessionKey := Zeros(SESSKEY128_SZ), sessionKeyLen := 0, flags := flags,
                                    hostname := if env.netbiosName.Some? then env.netbiosName.value else g.info.hostname,
                                    server := if env.netbiosName.Some? then server else g.info.server,
                                    nbDomain := if env.netbiosName.Some? && env.domainName.Some? then env.domainName.value
                                                else g.info.nbDomain)
              && status == NT_STATUS_UNSUCCESSFUL
    ensures env.openStatus == 0 && env.netbiosName.Some? && env.domainName.Some? && env.fqDomainName.Some? ==>
              && |events| >= 3
              && FirstPassing(env.randomWords, drawn)
              && var start := g.(info := g.info.(sessionKey := Zeros(SESSKEY128_SZ), sessionKeyLen := 0, flags := flags,
                                                 hostname := env.netbiosName.value, server := server,
                                                 nbDomain := env.domainName.value, fqdnDomain := env.fqDomainName.value,
                                                 clientChallenge := ChallengeFromWords(env.randomWords[drawn])));
                 var x := Exchange(start, env);
                 && events == [Bind] + x.sent + [Unbind]
                 && (status == NT_STATUS_SUCCESS <==> x.rc == 0)
                 && g'.info == (if x.rc == 0 then x.info.(flags := WithValid(x.info.flags)) else x.info)
    ensures |events| == 4 ==>
              env.dc.reqChallenge(g'.info.clientChallenge) == ChallengeReplied(0, g'.info.serverChallenge)
    ensures status == NT_STATUS_SUCCESS <==>
              && env.openStatus == 0 && |events| == 4
              && env.dc.authenticate2(events[2].negotiateFlags, events[2].clientCredential)
                   == Auth2Replied(0, g'.info.negoFlags, g'.info.serverCredential)
    ensures g'.ssp == g.ssp && g'.authContextCounter == g.authContextCounter && g'.auth2Flags == g.auth2Flags
  {
    events := [Bind];
    drawn := 0;
    if env.openStatus != 0 {
      return env.openStatus, g, events, drawn;
    }

    var info := Identify(g.info, server, flags, env);
    if !IdentityKnown(env) {
      return NT_STATUS_UNSUCCESSFUL, g.(info := info), events + [Unbind], drawn;
    }

    var after;
    status, after, events, drawn := AuthenticateIdentified(g.(info := info), env);
    g' := g.(info := after);
  }
}

=== FILE: session_key.dfy ===
/**
 Session-key computation ([MS-NRPC] section 3.1.4.3): the strong 128-bit
 key of netr_gen_skey128 and the legacy 64-bit key of netr_gen_skey64.

 StrongKey and LegacyKey are the key definitions on their own; GenSkey128
 and GenSkey64 model the two C functions with their password handling,
 PKCS#11 failure points, partial buffer updates and returned status, and
 their contracts tie each outcome back to the definitions.
 */
module SessionKey {
  import opened NetrTypes
  import opened LittleEndian
  import opened NetrState
  import opened Crypto

  /**
   The outcome of a session-key derivation: its status and the three
   fields of netr_info_t it writes, the password buffer, the session key
   and the session-key length. Every other field is left as it was.
   */
  datatype KeyOutcome = KeyOutcome(status: AuthStatus, password: seq<byte>, sessionKey: Bytes16, sessionKeyLen: nat)

  /** netr_info_t after a derivation with outcome k. */
  function Install(info: NetrInfo, k: KeyOutcome): NetrInfo
  {
    info.(password := k.password, sessionKey := k.sessionKey, sessionKeyLen := k.sessionKeyLen)
  }

  /** The bytes fed to MD5 for the strong key: 4 zero bytes, then the client challenge, then the server challenge. */
  function DigestInput(cc: Block, sc: Block): (m: seq<byte>)
    ensures |m| == SESSKEY_ZEROBUF_SZ + 2 * CRED_DATA_SZ
    ensures m[0..4] == Zeros(SESSKEY_ZEROBUF_SZ)
    ensures m[4..12] == cc && m[12..20] == sc
  {
    Zeros(SESSKEY_ZEROBUF_SZ) + cc + sc
  }

  /**
   The legacy DES input: the two challenges read as two little-endian
   words each and added word by word modulo 2^32.
   */
  function ChallengeSum(cc: Block, sc: Block): (s: Block)
    ensures LeIn32(s[0..4]) == Add32(LeIn32(cc[0..4]), LeIn32(sc[0..4]))
    ensures LeIn32(s[4..8]) == Add32(LeIn32(cc[4..8]), LeIn32(sc[4..8]))
  {
    var lo := Add32(LeIn32(cc[0..4]), LeIn32(sc[0..4]));
    var hi := Add32(LeIn32(cc[4..8]), LeIn32(sc[4..8]));
    var s := LeOut32(lo) + LeOut32(hi);
    assert s[0..4] == LeOut32(lo) && s[4..8] == LeOut32(hi);
    LeInOut(lo);
    LeInOut(hi);
    s
  }

  /** The challenge sum does not depend on which party contributed which challenge. */
  lemma ChallengeSumSymmetric(cc: Block, sc: Block)
    ensures ChallengeSum(cc, sc) == ChallengeSum(sc, cc)
  {
  }

  /** The strong session key: HMAC-MD5 keyed by the NTLM hash over MD5 of DigestInput. */
  function StrongKey(p: Primitives, pw: seq<byte>, cc: Block, sc: Block): Option<Bytes16>
  {
    match p.ntlmHash(pw)
    case None => None
    case Some(h) => p.hmacMd5(p.md5(DigestInput(cc, sc)), h)
  }

  /**
   The legacy session key: DES of the challenge sum under hash bytes
   [0, 7), then DES of that under hash bytes [9, 16).
   */
  function LegacyKey(p: Primitives, pw: seq<byte>, cc: Block, sc: Block): Option<Block>
  {
    match p.ntlmHash(pw)
    case None => None
    case Some(h) =>
      match p.des(h[0..7], ChallengeSum(cc, sc))
      case None => None
      case Some(mid) => p.des(h[9..16], mid)
  }

  /** The configured machine password was read and is not empty. */
  predicate PasswordUsable(cfg: Option<seq<byte>>)
  {
    cfg.Some? && !PasswordEmpty(cfg.value)
  }

  /**
   netr_gen_skey128. cfg is the machine password as read from the
   configuration (None when the read fails), fault the PKCS#11 call that
   fails, if any. The password buffer is zeroed before the read and wiped
   after use, so it is left empty on every path.
   */
  function GenSkey128(info: NetrInfo, cfg: Option<seq<byte>>, fault: DigestFault, p: Primitives): (r: KeyOutcome)
    ensures r.status != AuthRetry
    ensures !PasswordUsable(cfg) ==>
              r.status == AuthFailure && r.sessionKey == info.sessionKey
              && r.sessionKeyLen == info.sessionKeyLen
    ensures r.password == []
    ensures r.status == AuthFailure <==>
              || !PasswordUsable(cfg)
              || p.ntlmHash(cfg.value).None?
              || fault == Some(GetMechSession)
              || (fault.None? && StrongKey(p, cfg.value, info.clientChallenge, info.serverChallenge).None?)
    ensures PasswordUsable(cfg) && p.ntlmHash(cfg.value).Some? && fault.None? ==>
              r.sessionKeyLen == SESSKEY128_SZ
    ensures r.status == AuthSuccess && fault.None? ==>
              r.sessionKey == StrongKey(p, cfg.value, info.clientChallenge, info.serverChallenge).value
    ensures r.status == AuthSuccess && fault.Some? ==>
              r.sessionKey == info.sessionKey && r.sessionKeyLen == info.sessionKeyLen
    ensures r.status == AuthFailure ==> r.sessionKey == info.sessionKey
    ensures !(PasswordUsable(cfg) && p.ntlmHash(cfg.value).Some? && fault.None?) ==>
              r.sessionKeyLen == info.sessionKeyLen
  {
    match cfg
    case None => KeyOutcome(AuthFailure, [], info.sessionKey, info.sessionKeyLen)
    case Some(pw) =>
      if PasswordEmpty(pw) then KeyOutcome(AuthFailure, [], info.sessionKey, info.sessionKeyLen)
      else
        var wiped := KeyOutcome(AuthFailure, [], info.sessionKey, info.sessionKeyLen);
        match p.ntlmHash(pw)
        case None => wiped
        case Some(h) =>
          if fault == Some(GetMechSession) then wiped
          // A later PKCS#11 failure jumps to cleanup with rc still holding
          // the hash's success.
          else if fault.Some? then wiped.(status := AuthSuccess)
          else
            var digest := p.md5(DigestInput(info.clientChallenge, info.serverChallenge));
            var sized := wiped.(sessionKeyLen := SESSKEY128_SZ);
            match p.hmacMd5(digest, h)
            case None => sized
            case Some(k) => sized.(status := AuthSuccess, sessionKey := k)
  }

  /** netr_gen_skey64; cfg as for GenSkey128. */
  function GenSkey64(info: NetrInfo, cfg: Option<seq<byte>>, p: Primitives): (r: KeyOutcome)
    ensures r.status != AuthRetry
    ensures !PasswordUsable(cfg) ==>
              r.status == AuthFailure && r.sessionKey == info.sessionKey
              && r.sessionKeyLen == info.sessionKeyLen
    ensures r.password == []
    ensures r.status == AuthSuccess <==>
              PasswordUsable(cfg) && LegacyKey(p, cfg.value, info.clientChallenge, info.serverChallenge).Some?
    ensures r.status == AuthSuccess ==>
              && r.sessionKeyLen == SESSKEY64_SZ
              && r.sessionKey[..SESSKEY64_SZ] == LegacyKey(p, cfg.value, info.clientChallenge, info.serverChallenge).value
              && r.sessionKey[SESSKEY64_SZ..] == info.sessionKey[SESSKEY64_SZ..]
    ensures r.status == AuthFailure ==> r.sessionKey == info.sessionKey
    ensures r.sessionKeyLen ==
              if && PasswordUsable(cfg) && p.ntlmHash(cfg.value).Some?
                 && p.des(p.ntlmHash(cfg.value).value[0..7],
                          ChallengeSum(info.clientChallenge, info.serverChallenge)).Some?
              then SESSKEY64_SZ else info.sessionKeyLen
  {
    match cfg
    case None => KeyOutcome(AuthFailure, [], info.sessionKey, info.sessionKeyLen)
    case Some(pw) =>
      if PasswordEmpty(pw) then KeyOutcome(AuthFailure, [], info.sessionKey, info.sessionKeyLen)
      else
        var wiped := KeyOutcome(AuthFailure, [], info.sessionKey, info.sessionKeyLen);
        match p.ntlmHash(pw)
        case None => wiped
        case Some(h) =>
          match p.des(h[0..7], ChallengeSum(info.clientChallenge, info.serverChallenge))
          case None => wiped
          case Some(mid) =>
            var sized := wiped.(sessionKeyLen := SESSKEY64_SZ);
            match p.des(h[9..16], mid)
            case None => sized
            case Some(k) => sized.(status := AuthSuccess, sessionKey := k + info.sessionKey[8..])
  }

  /** Swapping the two challenges changes neither the legacy key nor its status. */
  lemma GenSkey64Symmetric(info: NetrInfo, cfg: Option<seq<byte>>, p: Primitives)
    ensures var swapped := info.(clientChallenge := info.serverChallenge, serverChallenge := info.clientChallenge);
            GenSkey64(swapped, cfg, p).status == GenSkey64(info, cfg, p).status
            && GenSkey64(swapped, cfg, p).sessionKey == GenSkey64(info, cfg, p).sessionKey
  {
  }

  /**
   A PKCS#11 digest failure after the session was obtained yields
   AuthSuccess with no key derived: the key buffer and its length are as
   they were.
   */
  lemma Skey128DigestFailureReportsSuccess(info: NetrInfo, pw: seq<byte>, step: DigestStep, p: Primitives)
    requires !PasswordEmpty(pw) && p.ntlmHash(pw).Some?
    requires step != GetMechSession
    ensures GenSkey128(info, Some(pw), Some(step), p).status == AuthSuccess
    ensures GenSkey128(info, Some(pw), Some(step), p).sessionKey == info.sessionKey
    ensures GenSkey128(info, Some(pw), Some(step), p).sessionKeyLen == info.sessionKeyLen
  {
  }
}

=== FILE: state.dfy ===
/**
 The process-wide NETLOGON state (netr_global_info, netr_ssp_ctx and the
 two non-static globals beside them), made an explicit record that every
 operation takes and returns.
 */
module NetrState {
  import opened NetrTypes

  /** NetrServerAuthenticate negotiate flags ([MS-NRPC] section 3.1.4.2). */
  const NEGO_BASE_FLAGS: bv32 := 0x0000_01FF
  const NEGO_STRONGKEY_FLAG: bv32 := 0x0000_4000
  const NEGO_SECURE_RPC_FLAG: bv32 := 0x4000_0000

  /**
   netr_info_t.flags bit set once the credential chain is established. It is
   bit 0, so setting it is arithmetic on the word.
   */
  const FLG_VALID: uint32 := 0x0000_0001

  /** flags | NETR_FLG_VALID: bit 0 set, every higher bit kept. */
  function WithValid(flags: uint32): (r: uint32)
    ensures r % 2 == FLG_VALID
    ensures r / 2 == flags / 2
  {
    if flags % 2 == 1 then flags else flags + 1
  }

  /** smbd/netlogon_flags configuration bits; a set bit disables a feature. */
  const CFG_DISABLE_SECURE_RPC: bv32 := 0x0000_0001
  const CFG_DISABLE_RESP_VERIF: bv32 := 0x0000_0002
  const CFG_DISABLE_SAMLOGONEX: bv32 := 0x0000_0004

  /** The initial value of netr_server_auth2_flags. */
  const DEFAULT_AUTH2_FLAGS: bv32 := NEGO_BASE_FLAGS | NEGO_STRONGKEY_FLAG | NEGO_SECURE_RPC_FLAG

  /**
   netr_info_t. The password field holds the leading bytes of the password
   buffer; every byte past its end is zero (the buffer is bzero'd before it
   is filled and wiped after use), so wiping it leaves it empty.
   */
  datatype NetrInfo = NetrInfo(
    flags: uint32,
    hostname: string,
    server: string,
    nbDomain: string,
    fqdnDomain: string,
    clientChallenge: Block,
    serverChallenge: Block,
    clientCredential: Block,
    serverCredential: Block,
    sessionKey: Bytes16,
    sessionKeyLen: nat,
    password: seq<byte>,
    negoFlags: bv32,
    useSecureRpc: bool,
    useLogonEx: bool)

  /** The part of netr_ssp_ctx this file touches. */
  datatype SspContext = SspContext(authVerifyResp: bool, authContextId: uint32)

  /**
   All process-wide state: netr_global_info, netr_ssp_ctx, the
   auth_context_id counter and netr_server_auth2_flags.
   */
  datatype Globals = Globals(
    info: NetrInfo,
    ssp: SspContext,
    authContextCounter: uint32,
    auth2Flags: bv32)

  /** Byte i of the password buffer. */
  function PasswordByte(pw: seq<byte>, i: nat): byte
  {
    if i < |pw| then pw[i] else 0
  }

  /** The first NETR_OWF_PASSWORD_SZ (16) bytes of the password buffer. */
  function OwfView(pw: seq<byte>): (v: Bytes16)
    ensures forall i :: 0 <= i < 16 ==> v[i] == PasswordByte(pw, i)
    ensures |pw| >= 16 ==> v == pw[..16]
    ensures |pw| < 16 ==> v == pw + Zeros(16 - |pw|)
  {
    var v := seq(16, i requires 0 <= i < 16 => PasswordByte(pw, i));
    assert |pw| < 16 ==> v == pw + Zeros(16 - |pw|) by {
      if |pw| < 16 {
        var z := Zeros(16 - |pw|);
        assert forall i :: 0 <= i < 16 ==> v[i] == (pw + z)[i];
      }
    }
    v
  }

  /** The test `*password == '\0'` of the configured machine password. */
  predicate PasswordEmpty(pw: seq<byte>)
  {
    PasswordByte(pw, 0) == 0
  }
}

=== FILE: types.dfy ===
/**
 Fixed-width byte and word types shared by the NETLOGON challenge/response
 client, the optional-value wrapper, the SMBAUTH status codes and the
 byte comparison the client uses to check a returned credential.
 */
module NetrTypes {

  /** An unsigned 8-bit byte. */
  type byte = b: int | 0 <= b < 0x100

  /** An unsigned 32-bit word (DWORD / uint32_t). */
  type uint32 = x: int | 0 <= x < 0x1_0000_0000

  /** A NETLOGON credential or challenge: NETR_CRED_DATA_SZ (8) bytes. */
  type Block = s: seq<byte> | |s| == 8 witness [0, 0, 0, 0, 0, 0, 0, 0]

  /** A 16-byte value: NTLM hash, MD5 digest, session-key buffer, OWF password. */
  type Bytes16 = s: seq<byte> | |s| == 16
    witness [0, 0, 0, 0, 0, 0, 0, 0, 0, 0, 0, 0, 0, 0, 0, 0]

  /** A DES key: NETR_DESKEY_LEN (7) bytes, 56 bits. */
  type DesKey = s: seq<byte> | |s| == 7 witness [0, 0, 0, 0, 0, 0, 0]

  const CRED_DATA_SZ: nat := 8
  const DESKEY_LEN: nat := 7
  const SESSKEY64_SZ: nat := 8
  const SESSKEY128_SZ: nat := 16
  const SESSKEY_ZEROBUF_SZ: nat := 4

  datatype Option<+T> = None | Some(value: T)

  /** SMBAUTH_SUCCESS, SMBAUTH_FAILURE and SMBAUTH_RETRY. */
  datatype AuthStatus = AuthSuccess | AuthFailure | AuthRetry

  /** NT status codes the client returns. */
  const NT_STATUS_SUCCESS: uint32 := 0
  const NT_STATUS_UNSUCCESSFUL: uint32 := 0xC000_0001

  /** n zero bytes, the content of a buffer after bzero. */
  function Zeros(n: nat): (z: seq<byte>)
    ensures |z| == n
    ensures forall i :: 0 <= i < n ==> z[i] == 0
  {
    seq(n, _ => 0)
  }

  /**
   memcmp over two equal-length buffers, scanning from index i: 0 when the
   bytes agree from i on, otherwise the sign of the first difference.
   */
  function MemcmpFrom(a: seq<byte>, b: seq<byte>, i: nat): (r: int)
    requires |a| == |b| && i <= |a|
    ensures -1 <= r <= 1
    ensures r == 0 <==> forall k :: i <= k < |a| ==> a[k] == b[k]
    decreases |a| - i
  {
    if i == |a| then 0
    else if a[i] < b[i] then -1
    else if a[i] > b[i] then 1
    else MemcmpFrom(a, b, i + 1)
  }

  /** memcmp(a, b, |a|): zero exactly when the buffers are equal. */
  function Memcmp(a: seq<byte>, b: seq<byte>): (r: int)
    requires |a| == |b|
    ensures r == 0 <==> a == b
  {
    var r := MemcmpFrom(a, b, 0);
    assert r == 0 ==> a == b by {
      if r == 0 {
        assert forall k :: 0 <= k < |a| ==> a[k] == b[k];
      }
    }
    r
  }
}
